=== FILE: README.md ===
# Log-parser diagnostics of the Deadside bot, in Dafny

This project models the parts of the bot's parser cog (`bot/cogs/parsers.py`) that hold
program logic rather than Discord, database or logging glue:

- **`/validatelogparser`** replays a server log file line by line. Each line is classified by
  an ordered, first-match-wins chain of six patterns: queue join, player joined, disconnect,
  mission ready, mission initial, airdrop flying. The replay keeps:
  - the raw tallies of the validation results dictionary;
  - the four lifecycle counters: `jq` (queued), `j2` (joined), `d1` (disconnected after
    joining) and `d2` (disconnected before joining);
  - a table of each player's last recorded state (QUEUED, JOINED, DISCONNECTED).

  From these it reports the player count `PC = j2 - d1` and the queue count
  `QC = jq - j2 - d2`, each flagged valid when it is not negative.
- **`/test_regex`** tries the patterns of an ordered dictionary against each sample line and
  reports the first that matches, or the first 50 characters of a line that none matches.
- **`/resetlogparser`** drops the saved parser state of one server, or of every configured
  server of the guild. The state is held in five tables keyed by `"{guild_id}_{server_id}"`.
- **`/debug_playercount`** picks the servers to report on and shows, per server, a histogram
  of the players' current states.

Modules:

| file | module | contents |
|---|---|---|
| options.dfy | `Options` | `Option`, `Result`, `Get` (Python's `dict.get`) |
| text.dfy | `Text` | ASCII lower-casing, substring test (Python's `in` on strings) |
| decimal.dfy | `Decimal` | decimal rendering of guild ids, with its parse round trip |
| dispatch.dfy | `Dispatch` | generic first-match rule; the regex test loop |
| patterns.dfy | `Patterns` | per-pattern search results of a line; the classifying chain; the mission filter |
| replay.dfy | `ConnectionReplay` | the replay fold, and reference definitions over the line history |
| validate.dfy | `Validate` | the validation command, its report, worked examples |
| tables.dfy | `Tables` | the guild's server configuration and how each command reads a server id, the five per-server tables, server keys, forgetting a key |
| reset.dfy | `Reset` | the reset command |
| inspect.dfy | `Inspect` | server selection and the state histogram of the debug command |

The regular expressions are defined outside this file, so they are not part of this model.
A log line is represented by what each of the six patterns found in it (`Patterns.Matches`).
The regex test takes the search function as a parameter.

The counts are not clamped at zero. The code computes `j2 - d1` and `jq - j2 - d2` as they
are and only marks a negative result as not valid (parsers.py:681-682, 720-721)
(`Validate.StrayDisconnectExample` exhibits a negative queue count).

## Model

| member | source | states |
|---|---|---|
| Text.Lower | bot/cogs/parsers.py:665 | lower-casing keeps the length, leaves no upper-case letter, keeps every other character, and turns each letter A-Z into the same letter a-z |
| Text.LowerIdempotent | bot/cogs/parsers.py:665 | lower-casing a lower-cased name changes nothing |
| Decimal.NatToString | bot/cogs/parsers.py:513 | `str(guild_id)`: a non-empty string of decimal digits with no leading zero, a single digit exactly for ids below ten; its meaning as a number is stated by `Decimal.ParseRendered` |
| Decimal.ParseRendered | bot/cogs/parsers.py:513 | the decimal rendering of a guild id reads back as the same number |
| Decimal.RenderingInjective | bot/cogs/parsers.py:544 | different guild ids render to different strings |
| Dispatch.FirstMatch | bot/cogs/parsers.py:374-379 | the result is absent iff no pattern matched; otherwise it is the earliest match, and every earlier pattern failed |
| Dispatch.ProbeLine | bot/cogs/parsers.py:372-381 | a line is reported as a hit iff some pattern matches it; the reported pattern and groups are those of the first match; a miss shows the first min(50, length) characters of the line |
| Dispatch.TestPatterns | bot/cogs/parsers.py:371-381 | one report entry per sample line, in order, each with the meaning stated for `ProbeLine` |
| Patterns.Classify | bot/cogs/parsers.py:630-678 | a line is unmatched iff none of the six patterns found anything in it |
| Patterns.ClassifyIsFirstMatch | bot/cogs/parsers.py:630-678 | the if/elif chain is the generic first-match rule over the six patterns in their fixed order |
| Patterns.MissionFilterExamples | bot/cogs/parsers.py:665-666 | "GA_Military_02_mis1" passes the "mis" filter in either case; "Airdrop" does not |
| Patterns.IsCountedMission | bot/cogs/parsers.py:665-673 | the "mis" filter on mission names; what it accepts is stated by `Patterns.MissionFilterIgnoresCase` |
| Patterns.MissionFilterIgnoresCase | bot/cogs/parsers.py:665-666 | a mission is counted exactly when "mis" occurs in its name in any mix of cases, so a name and its lower-cased form are counted alike |
| ConnectionReplay.Count | bot/cogs/parsers.py:626 | every line, matched or not, adds exactly one to the line total |
| ConnectionReplay.CountTally | bot/cogs/parsers.py:630-678 | a line adds one to exactly the tally its event names and leaves every other tally alone; a mission counts only if its name passes the filter |
| ConnectionReplay.Advance | bot/cogs/parsers.py:648-657 | a queue join adds one to jq, a join one to j2; a disconnect adds one to d1 iff the player's recorded state is JOINED, and otherwise one to d2; other lines change none of the four |
| ConnectionReplay.Track | bot/cogs/parsers.py:636-657 | a connection event sets its player's state to QUEUED, JOINED or DISCONNECTED whatever it was, and leaves every other player's entry unchanged; other lines leave the table unchanged |
| ConnectionReplay.Step | bot/cogs/parsers.py:630-657 | one loop iteration keeps `queue_joins == jq`, `player_joins == j2` and `disconnects_post_join == d1 + d2` |
| ConnectionReplay.RunGrows | bot/cogs/parsers.py:625-678 | no counter or tally ever decreases during a replay |
| ConnectionReplay.Run | bot/cogs/parsers.py:625-626 | replaying n lines adds n to the line total and keeps the tallies consistent with the lifecycle counters |
| ConnectionReplay.Replay | bot/cogs/parsers.py:601-678 | the replay of a whole file from the zero counters: its line total is the number of lines; its tallies, counters and player table are stated by `ReplayTallies`, `ReplayDisconnects` and `RunPlayers` |
| ConnectionReplay.ReplayConsistent | bot/cogs/parsers.py:604-621 | from the initial zero counters, the three consistency equations hold after every prefix of the file |
| ConnectionReplay.RunExtend | bot/cogs/parsers.py:625 | the replay of the first n + 1 lines is one loop iteration after the replay of the first n |
| ConnectionReplay.RunSnoc | bot/cogs/parsers.py:625 | appending a line to the file adds one loop iteration at the end |
| ConnectionReplay.RunAppend | bot/cogs/parsers.py:625-678 | replaying a file in two pieces, the second resuming from the state the first left, equals replaying it whole |
| ConnectionReplay.RunCounts | bot/cogs/parsers.py:630-678 | every tally grows by exactly the number of lines whose event names it |
| ConnectionReplay.ReplayTallies | bot/cogs/parsers.py:601-678 | after the whole file, every tally equals the number of lines whose event names it |
| ConnectionReplay.OccurrencesPartition | bot/cogs/parsers.py:630-678 | each line counts towards at most one tally, so the six tallies sum to at most the line total |
| ConnectionReplay.RunPlayers | bot/cogs/parsers.py:636-657 | each player's entry is the state set by the last connection event about them; a player no line mentions keeps the starting entry |
| ConnectionReplay.ReplayDisconnects | bot/cogs/parsers.py:648-657 | d1 is the number of disconnects whose player's last earlier event was a join; d1 + d2 is the number of disconnect lines |
| ConnectionReplay.PlayerCountOfHistory | bot/cogs/parsers.py:681 | PC in terms of the line history alone: player joins minus disconnects of players who had joined |
| ConnectionReplay.QueueCountOfHistory | bot/cogs/parsers.py:682 | QC in terms of the line history alone: queue joins minus player joins minus the disconnects of players who had not joined |
| ConnectionReplay.PlayerCount | bot/cogs/parsers.py:681 | PC = j2 - d1, not clamped; in terms of the line history it is stated by `PlayerCountOfHistory` |
| ConnectionReplay.QueueCount | bot/cogs/parsers.py:682 | QC = jq - j2 - d2, not clamped; in terms of the line history it is stated by `QueueCountOfHistory` |
| Validate.MakeReport | bot/cogs/parsers.py:681-721 | corrected report (see ## Findings): the shown figures satisfy the shown formulas PC = j2 - d1 and QC = jq - j2 - d2; each count is valid iff it is not negative; patterns are working iff some queue join was seen |
| Validate.ReportShowsTallies | bot/cogs/parsers.py:692-714 | corrected report (see ## Findings): every tally appears in the report; the disconnect tally appears as d1 + d2 |
| Validate.ReportAsWritten | bot/cogs/parsers.py:685-723 | the report as the command builds it: on a consistent state the line labelled d1 shows d1 + d2, while PC = j2 - d1 and QC = jq - j2 - d2 are computed from the real counters |
| Validate.ValidateLogParser | bot/cogs/parsers.py:601-721 | the report the command builds for a whole file: the line total, every tally but the disconnect one as the count of lines naming it, the line labelled d1 showing every disconnect line, d2 as the disconnects of players who had not joined, PC computed from the post-join disconnects, QC by its formula, no clamping, and the three flags |
| Validate.ReplayLoop | bot/cogs/parsers.py:601-678 | the loop over the file from zero counters and an empty player table ends in the state the replay fold defines |
| Validate.AsWrittenReportOfHistory | bot/cogs/parsers.py:681-714 | the figures of the as-written report of a file in terms of its lines alone |
| Validate.ReportAsWrittenShowsTallies | bot/cogs/parsers.py:692-714 | the as-written report shows every tally under its own label, the disconnect tally on the line labelled d1 |
| Validate.ShownD1AsWritten | bot/cogs/parsers.py:696 | for every log the line labelled d1 exceeds the real d1 by d2, so the printed figures satisfy PC = j2 - d1 exactly when no player disconnected before joining |
| Validate.UnmatchedLineOnlyCounted | bot/cogs/parsers.py:625-678 | a line no pattern matches changes nothing but the line total |
| Validate.RunOne | bot/cogs/parsers.py:625 | helper for the worked examples: a one-line file is one loop iteration |
| Validate.RunTwo | bot/cogs/parsers.py:625 | helper for the worked examples: a two-line file is two loop iterations |
| Validate.RunThree | bot/cogs/parsers.py:625 | helper for the worked examples: a three-line file is three loop iterations |
| Validate.FullLifecycleExample | bot/cogs/parsers.py:630-682 | queue, join, disconnect of one player: jq = j2 = d1 = 1, d2 = 0, PC = QC = 0 |
| Validate.LeftWhileQueuedExample | bot/cogs/parsers.py:648-657 | queue then disconnect: the disconnect is pre-join (d2 = 1), PC = QC = 0 |
| Validate.StrayDisconnectExample | bot/cogs/parsers.py:653-656 | a disconnect of a player never seen before counts as d2; QC = -1 is reported as not valid, not clamped |
| Validate.ShownD1AsWrittenCountsAllDisconnects | bot/cogs/parsers.py:696 | the report as written shows 1 as d1 when d1 is 0, so its figures break its own formula PC = j2 - d1 |
| Tables.KeyId | bot/cogs/parsers.py:511-544 | the reset command's reading of a server id, "None" for an entry without one; stated by `Inspect.IdlessServerSelection` |
| Tables.ShownId | bot/cogs/parsers.py:446 | the debug command's reading of a server id, "unknown" for an entry without one; stated by `Inspect.IdlessServerSelection` |
| Tables.ServerKey | bot/cogs/parsers.py:513 | the key splits back into its parts: the guild id's rendering, then an underscore at exactly that position, then the server id |
| Tables.ServerKeyInjective | bot/cogs/parsers.py:544 | distinct (guild, server id) pairs have distinct keys |
| Tables.Forget | bot/cogs/parsers.py:513-533 | after the five pops no table holds the key, and every other key's entries are unchanged |
| Tables.ForgetCleared | bot/cogs/parsers.py:517 | popping a key no table holds changes nothing |
| Tables.ForgetIdempotent | bot/cogs/parsers.py:513-533 | resetting a server twice is the same as resetting it once |
| Tables.ForgetCommutes | bot/cogs/parsers.py:543-566 | the order in which servers are reset does not matter |
| Reset.GuildKeys | bot/cogs/parsers.py:543-544 | the reset-all keys are one per configured server in configuration order, and a server key of the guild is among them exactly when a server with that id is configured |
| Reset.ResetAllCoversResetOne | bot/cogs/parsers.py:507-566 | resetting every server clears the state of each configured server, as resetting that server alone would |
| Reset.ForgetAll | bot/cogs/parsers.py:543-566 | forgetting each key in turn; what it clears and keeps is stated by `Reset.ForgetAllSpec` and `Reset.ForgetAllIdempotent` |
| Reset.ForgetAllSpec | bot/cogs/parsers.py:543-566 | resetting a list of keys clears every listed key and leaves every unlisted key's entries unchanged |
| Reset.ForgetAllIdempotent | bot/cogs/parsers.py:543-566 | a second reset-all of the same servers changes nothing |
| Reset.ResetAll | bot/cogs/parsers.py:541-566 | the reset-all branch forgets every configured server's key and counts one reset per configured server |
| Reset.ResetOne | bot/cogs/parsers.py:507-540 | the single-server branch succeeds iff some configured server has the requested id; it then forgets exactly that server's key and counts 1; otherwise it fails with "not found" and returns no tables |
| Reset.ResetLogParser | bot/cogs/parsers.py:487-566 | the error results in the code's order (parser missing, guild not configured, no servers); a non-empty id resets one server; an absent or empty id resets all |
| Reset.ResetAllIsolatesGuilds | bot/cogs/parsers.py:544 | resetting every server of one guild leaves every other guild's entries unchanged |
| Reset.ResetOneIsolatesServers | bot/cogs/parsers.py:513 | resetting one server leaves every other server's entries unchanged, in any guild |
| Inspect.Selected | bot/cogs/parsers.py:444-451 | without a (non-empty) server id every configured server is reported, in configuration order; with one, each configured entry whose id, read with the default "unknown", is the requested one is kept as often as it is configured, and every other entry is dropped |
| Inspect.IdlessServerSelection | bot/cogs/parsers.py:446-450 | an entry without an id is skipped when "None" is requested and kept when "unknown" is, while the reset command knows it as "None" (lines 511, 544) |
| Inspect.Bump | bot/cogs/parsers.py:468 | the state's count goes up by one (from 0 if new); every other count stays |
| Inspect.TallyOne | bot/cogs/parsers.py:466-468 | one loop iteration keeps the histogram equal to the per-state player counts of the players seen so far |
| Inspect.StateHistogram | bot/cogs/parsers.py:464-468 | the keys are exactly the states some player is in; each count is the number of players in that state; the counts sum to the number of players |
| Inspect.PlayerSummary | bot/cogs/parsers.py:463-474 | a server without a player table shows 0 players and no states; otherwise the shown total is the table's size, and the counts are the table's histogram: its occupied states, each with its number of holders, summing to the total |

## Left out

- The early error returns of the validation command ("Log parser not initialized" and "Test
  log file not found", parsers.py:590-598) and the three of the debug command (no log parser,
  no guild configuration, no servers; parsers.py:419-432). `Validate.ValidateLogParser` and
  `Inspect.Selected` describe what happens once these guards have passed. The reset command's
  guards are modelled (`Reset.ResetLogParser`), because they decide whether any state is
  cleared.
- Discord plumbing (slash commands, permission checks, deferring, embeds, follow-up
  messages), the database lookup of the guild configuration (it becomes the `config`
  parameter), and all logging.
- The exception handlers that turn any failure into an error message.
- Opening and reading the log file. The input is the sequence of its lines, already
  searched by the six patterns.
- The regular expressions and the connection parser's internals: pattern search,
  `get_server_stats` and `debug_server_state`. They are defined elsewhere and are not part
  of this model. A tuple-unpacking error from a pattern with the wrong number of groups is
  not modelled, because the group counts are part of patterns defined outside the cog.
- Stripping whitespace from each line: it only affects what the patterns, defined outside the cog, see.
- The dictionary entries `disconnects_pre_join`, `heli_crashes` and `traders`. They are
  initialised to 0 and never incremented, so the `Tally` record leaves them out.
- Text.Lower: lower-cases ASCII letters only. Python's `str.lower` also maps non-ASCII
  letters, and can change a string's length (U+0130 becomes two characters). Those mappings
  are not modelled.
- Decimal.NatToString: guild ids are modelled as non-negative integers, as Discord issues
  them. A negative id's leading minus sign is not modelled.
- The `hasattr` guards on the parser's tables: all five tables are assumed present.
- The second loop of the regex test (log-parser patterns, lines 383-393) follows the same
  rule as the first and is covered by `Dispatch.TestPatterns` with another pattern list. The
  2000-character message split and the sample lines themselves are presentation.
- The stats, file-state and status lines of the debug command (lines 455-461, 470-474),
  other than the player total and histogram. The iteration order of the histogram, which
  only affects how the embed lists the states.
- Tables.ServerConfig: a stored `_id` is modelled as the text `str()` makes of it; the
  rendering of non-text ids (such as database object ids) is not modelled. A missing id is
  modelled: the reset command reads it as "None" and the debug command as "unknown".
- The other commands of the cog (parser status, refresh, stats, historical parse, manual
  parse, position reset, count investigation): they are thin wrappers over collaborators
  that are not part of this model.

## Findings

| source | as written | input that shows it | evidently intended | confidence | as-written member | corrected member |
|---|---|---|---|---|---|---|
| bot/cogs/parsers.py:696 | the line labelled "Disconnects Post-Join (d1)" shows `validation_results['disconnects_post_join']`, which counts every disconnect line, i.e. d1 + d2 | a log with one disconnect of a player never seen before: the report shows d1 = 1 and d2 = 1, yet PC = j2 - d1 = 0 | the line shows d1, so that the printed figures satisfy the printed formula PC = j2 - d1 | medium, not executed | Validate.ShownD1AsWrittenCountsAllDisconnects | Validate.MakeReport |

=== FILE: decimal.dfy ===
/** Decimal rendering of non-negative integers, as Python's `str(n)` and
    f-strings produce it for the guild ids that prefix every server key. */
module Decimal {

  predicate IsDigit(c: char)
  {
    '0' <= c <= '9'
  }

  function DigitChar(d: nat): (c: char)
    requires d < 10
    ensures IsDigit(c)
  {
    ('0' as int + d) as char
  }

  function DigitValue(c: char): nat
    requires IsDigit(c)
  {
    c as int - '0' as int
  }

  /** `str(n)`: the shortest decimal digits of `n`, with no leading zero. */
  function NatToString(n: nat): (s: string)
    ensures |s| > 0
    ensures forall i :: 0 <= i < |s| ==> IsDigit(s[i])
    ensures |s| > 1 ==> s[0] != '0'
    ensures n < 10 <==> |s| == 1
  {
    if n < 10 then [DigitChar(n)] else NatToString(n / 10) + [DigitChar(n % 10)]
  }

  /** Reads a string of decimal digits back as a number. */
  function ParseDigits(s: string): nat
    requires forall i :: 0 <= i < |s| ==> IsDigit(s[i])
  {
    if |s| == 0 then 0 else ParseDigits(s[..|s| - 1]) * 10 + DigitValue(s[|s| - 1])
  }

  /** Rendering loses nothing: the digits read back as the same number. */
  lemma {:induction false} ParseRendered(n: nat)
    ensures ParseDigits(NatToString(n)) == n
  {
    var s := NatToString(n);
    if n >= 10 {
      ParseRendered(n / 10);
      assert s[..|s| - 1] == NatToString(n / 10);
    }
  }

  /** Different numbers render differently. */
  lemma RenderingInjective(a: nat, b: nat)
    requires NatToString(a) == NatToString(b)
    ensures a == b
  {
    ParseRendered(a);
    ParseRendered(b);
  }
}

=== FILE: dispatch.dfy ===
/** First-match-wins dispatch over an ordered list of patterns: the rule
    both diagnostic commands use when they try each pattern of an ordered
    dictionary in turn and stop at the first that matches a line. */
module Dispatch {
  import opened Options

  /** The position and payload of the first `Some` in `rs`, if any. */
  function FirstMatch<T>(rs: seq<Option<T>>): (r: Option<(nat, T)>)
    ensures r.None? <==> forall i :: 0 <= i < |rs| ==> rs[i].None?
    ensures r.Some? ==> r.value.0 < |rs| && rs[r.value.0] == Some(r.value.1)
    ensures r.Some? ==> forall j :: 0 <= j < r.value.0 ==> rs[j].None?
    decreases |rs|
  {
    if |rs| == 0 then None
    else if rs[0].Some? then Some((0, rs[0].value))
    else
      match FirstMatch(rs[1..])
      case None => None
      case Some(p) => Some((p.0 + 1, p.1))
  }

  /** What the diagnostic reports for one line: the name and captured
      groups of the pattern that matched, or the first 50 characters of
      the line when none did. */
  datatype Probe = Hit(pattern: string, groups: seq<string>) | Miss(excerpt: string)

  const ExcerptLength: nat := 50

  /** `search(p, line)` is the regex `p`, defined outside the cog, searched in `line`. */
  function ProbeLine(patterns: seq<string>, search: (string, string) -> Option<seq<string>>, line: string): (r: Probe)
    ensures r.Miss? <==> forall i :: 0 <= i < |patterns| ==> search(patterns[i], line).None?
    ensures r.Hit? ==>
              exists i :: 0 <= i < |patterns| && patterns[i] == r.pattern && search(patterns[i], line) == Some(r.groups)
                          && forall j :: 0 <= j < i ==> search(patterns[j], line).None?
    ensures r.Miss? ==> r.excerpt <= line && |r.excerpt| == if |line| < ExcerptLength then |line| else ExcerptLength
  {
    var results := seq(|patterns|, i requires 0 <= i < |patterns| => search(patterns[i], line));
    assert forall i :: 0 <= i < |patterns| ==> results[i] == search(patterns[i], line);
    match FirstMatch(results)
    case Some(p) =>
      assert forall j :: 0 <= j < p.0 ==> search(patterns[j], line).None?;
      Hit(patterns[p.0], p.1)
    case None => Miss(if |line| < ExcerptLength then line else line[..ExcerptLength])
  }

  /** Probes every sample line in order, one report entry per line. */
  method TestPatterns(lines: seq<string>, patterns: seq<string>, search: (string, string) -> Option<seq<string>>)
    returns (report: seq<Probe>)
    ensures |report| == |lines|
    ensures forall k :: 0 <= k < |lines| ==>
              (report[k].Miss? <==> forall i :: 0 <= i < |patterns| ==> search(patterns[i], lines[k]).None?)
    ensures forall k :: 0 <= k < |lines| && report[k].Hit? ==>
              exists i :: 0 <= i < |patterns| && patterns[i] == report[k].pattern
                          && search(patterns[i], lines[k]) == Some(report[k].groups)
                          && forall j :: 0 <= j < i ==> search(patterns[j], lines[k]).None?
    ensures forall k :: 0 <= k < |lines| ==> report[k] == ProbeLine(patterns, search, lines[k])
  {
    report := [];
    var n := 0;
    while n < |lines|
      invariant 0 <= n <= |lines|
      invariant |report| == n
      invariant forall k :: 0 <= k < n ==> report[k] == ProbeLine(patterns, search, lines[k])
    {
      report := report + [ProbeLine(patterns, search, lines[n])];
      n := n + 1;
    }
  }
}

=== FILE: inspect.dfy ===
/** The player-count debug command: which servers it inspects, and the
    histogram of player states it shows for each. */
module Inspect {
  import opened Options
  import opened Tables

  /** The servers the command reports on: all of them, or, when a non-empty
      id is given, those with that id. Configuration order is kept. */
  function Selected(servers: seq<ServerConfig>, serverId: Option<string>): (r: seq<ServerConfig>)
    ensures |r| <= |servers|
    ensures forall s :: s in r <==> s in servers && (serverId.None? || serverId.value == "" || ShownId(s) == serverId.value)
    ensures serverId.None? || serverId.value == "" ==> r == servers
    ensures forall s :: multiset(r)[s] == if serverId.Some? && serverId.value != "" && ShownId(s) != serverId.value then 0 else multiset(servers)[s]
    decreases |servers|
  {
    if |servers| == 0 then []
    else
      var init := servers[..|servers| - 1];
      var rest := Selected(init, serverId);
      var s := servers[|servers| - 1];
      assert servers == init + [s];
      if serverId.Some? && serverId.value != "" && ShownId(s) != serverId.value then rest else rest + [s]
  }

  /** A configured entry without an id is "unknown" to the debug command,
      while the reset command knows it as "None". */
  lemma IdlessServerSelection()
    ensures Selected([ServerConfig(None)], Some("None")) == []
    ensures Selected([ServerConfig(None)], Some("unknown")) == [ServerConfig(None)]
    ensures KeyId(ServerConfig(None)) == "None"
  {
  }

  /** The players among `ids` whose current state is `st`. */
  function HoldersIn(players: map<string, PlayerRecord>, ids: set<string>, st: string): set<string>
    requires ids <= players.Keys
  {
    set id | id in ids && players[id].currentState == st
  }

  /** The states the players among `ids` are in. */
  function StatesIn(players: map<string, PlayerRecord>, ids: set<string>): set<string>
    requires ids <= players.Keys
  {
    set id | id in ids :: players[id].currentState
  }

  function Holders(players: map<string, PlayerRecord>, st: string): set<string>
  {
    HoldersIn(players, players.Keys, st)
  }

  function StatesOf(players: map<string, PlayerRecord>): set<string>
  {
    StatesIn(players, players.Keys)
  }

  /** Taking one more player into account adds their state to the states
      seen and one to that state's holders, and nothing else. */
  lemma AddPlayer(players: map<string, PlayerRecord>, ids: set<string>, id: string, st: string)
    requires ids <= players.Keys && id in players && id !in ids
    ensures StatesIn(players, ids + {id}) == StatesIn(players, ids) + {players[id].currentState}
    ensures |HoldersIn(players, ids + {id}, st)| == |HoldersIn(players, ids, st)| + if st == players[id].currentState then 1 else 0
  {
    if st == players[id].currentState {
      assert HoldersIn(players, ids + {id}, st) == HoldersIn(players, ids, st) + {id};
    } else {
      assert HoldersIn(players, ids + {id}, st) == HoldersIn(players, ids, st);
    }
  }

  /** A state somebody among `ids` holds is among their states. */
  lemma HeldIsSeen(players: map<string, PlayerRecord>, ids: set<string>, st: string)
    requires ids <= players.Keys
    ensures HoldersIn(players, ids, st) != {} ==> st in StatesIn(players, ids)
  {
    if HoldersIn(players, ids, st) != {} {
      var id :| id in HoldersIn(players, ids, st);
      assert players[id].currentState == st;
    }
  }

  /** The sum of a map's values. */
  ghost function Total(m: map<string, nat>): nat
    decreases |m.Keys|
  {
    if m == map[] then 0
    else
      var k :| k in m;
      assert |(m - {k}).Keys| < |m.Keys| by {
        assert (m - {k}).Keys == m.Keys - {k};
      }
      m[k] + Total(m - {k})
  }

  /** Any entry can be taken out of the sum first. */
  lemma {:induction false} TotalRemove(m: map<string, nat>, k: string)
    requires k in m
    ensures Total(m) == m[k] + Total(m - {k})
    decreases |m.Keys|
  {
    var j :| j in m && Total(m) == m[j] + Total(m - {j});
    if j != k {
      assert (m - {j}).Keys == m.Keys - {j};
      assert (m - {k}).Keys == m.Keys - {k};
      TotalRemove(m - {j}, k);
      TotalRemove(m - {k}, j);
      assert m - {j} - {k} == m - {k} - {j};
    }
  }

  /** Setting one entry changes the sum by the difference. */
  lemma TotalUpdate(m: map<string, nat>, k: string, v: nat)
    ensures Total(m[k := v]) == Total(m) - (if k in m then m[k] else 0) + v
  {
    TotalRemove(m[k := v], k);
    if k in m {
      TotalRemove(m, k);
      assert m[k := v] - {k} == m - {k};
    } else {
      assert m[k := v] - {k} == m;
    }
  }

  /** `counts` is the histogram of the players among `done`. */
  ghost predicate Tallied(players: map<string, PlayerRecord>, done: set<string>, counts: map<string, nat>)
    requires done <= players.Keys
  {
    && counts.Keys == StatesIn(players, done)
    && (forall st :: st in counts ==> counts[st] == |HoldersIn(players, done, st)|)
    && Total(counts) == |done|
  }

  /** `state_counts[state] = state_counts.get(state, 0) + 1` */
  function Bump(counts: map<string, nat>, st: string): (r: map<string, nat>)
    ensures r.Keys == counts.Keys + {st}
    ensures st in counts ==> r[st] == counts[st] + 1
    ensures st !in counts ==> r[st] == 1
    ensures forall other :: other in counts && other != st ==> r[other] == counts[other]
  {
    counts[st := (if st in counts then counts[st] else 0) + 1]
  }

  /** One iteration of the counting loop keeps the histogram up to date:
      its states, each state's count, and the sum of the counts. */
  lemma TallyOne(players: map<string, PlayerRecord>, done: set<string>, counts: map<string, nat>, id: string)
    requires done <= players.Keys && id in players && id !in done
    requires Tallied(players, done, counts)
    ensures Tallied(players, done + {id}, Bump(counts, players[id].currentState))
  {
    TallyStates(players, done, counts, id);
    TallyCounts(players, done, counts, id);
    TallyTotal(players, done, counts, id);
  }

  lemma TallyStates(players: map<string, PlayerRecord>, done: set<string>, counts: map<string, nat>, id: string)
    requires done <= players.Keys && id in players && id !in done
    requires counts.Keys == StatesIn(players, done)
    ensures Bump(counts, players[id].currentState).Keys == StatesIn(players, done + {id})
  {
    AddPlayer(players, done, id, players[id].currentState);
  }

  lemma TallyCounts(players: map<string, PlayerRecord>, done: set<string>, counts: map<string, nat>, id: string)
    requires done <= players.Keys && id in players && id !in done
    requires counts.Keys == StatesIn(players, done)
    requires forall st :: st in counts ==> counts[st] == |HoldersIn(players, done, st)|
    ensures var next := Bump(counts, players[id].currentState);
            forall st :: st in next ==> next[st] == |HoldersIn(players, done + {id}, st)|
  {
    var next := Bump(counts, players[id].currentState);
    forall st | st in next
      ensures next[st] == |HoldersIn(players, done + {id}, st)|
    {
      AddPlayer(players, done, id, st);
      HeldIsSeen(players, done, st);
    }
  }

  lemma TallyTotal(players: map<string, PlayerRecord>, done: set<string>, counts: map<string, nat>, id: string)
    requires id in players && id !in done
    requires Total(counts) == |done|
    ensures Total(Bump(counts, players[id].currentState)) == |done + {id}|
  {
    var st := players[id].currentState;
    TotalUpdate(counts, st, (if st in counts then counts[st] else 0) + 1);
  }

  /** The `state_counts` loop: counts the players of a table by their
      current state. */
  method StateHistogram(players: map<string, PlayerRecord>) returns (counts: map<string, nat>)
    ensures counts.Keys == StatesOf(players)
    ensures forall st :: st in counts ==> counts[st] == |Holders(players, st)|
    ensures Total(counts) == |players|
  {
    counts := map[];
    var remaining := players.Keys;
    while remaining != {}
      invariant remaining <= players.Keys
      invariant Tallied(players, players.Keys - remaining, counts)
      decreases |remaining|
    {
      var id :| id in remaining;
      TallyOne(players, players.Keys - remaining, counts, id);
      counts := Bump(counts, players[id].currentState);
      TakeOne(players.Keys, remaining, id);
      remaining := remaining - {id};
    }
    assert players.Keys - remaining == players.Keys;
    TalliedAll(players, counts);
  }

  /** Moving one id from the unvisited to the visited ids. */
  lemma TakeOne(keys: set<string>, remaining: set<string>, id: string)
    requires remaining <= keys && id in remaining
    ensures keys - (remaining - {id}) == (keys - remaining) + {id}
  {
  }

  /** A histogram of every player is the histogram of the table. */
  lemma TalliedAll(players: map<string, PlayerRecord>, counts: map<string, nat>)
    requires Tallied(players, players.Keys, counts)
    ensures counts.Keys == StatesOf(players)
    ensures forall st :: st in counts ==> counts[st] == |Holders(players, st)|
    ensures Total(counts) == |players|
  {
    assert |players.Keys| == |players|;
  }

  /** What the command shows for one server: the number of players its
      table holds and their histogram; a server with no table shows none. */
  method PlayerSummary(t: Tables, key: string) returns (total: nat, counts: map<string, nat>)
    ensures key !in t.playerStates ==> total == 0 && counts == map[]
    ensures key in t.playerStates ==> total == |t.playerStates[key]|
    ensures Total(counts) == total
    ensures var players := if key in t.playerStates then t.playerStates[key] else map[];
            && counts.Keys == StatesOf(players)
            && (forall st :: st in counts ==> counts[st] == |Holders(players, st)|)
  {
    var players := if key in t.playerStates then t.playerStates[key] else map[];
    total := |players|;
    counts := StateHistogram(players);
  }
}

=== FILE: options.dfy ===
/** Optional values and success/failure results, used wherever the bot
    either finds something or reports an error back to the caller. */
module Options {

  datatype Option<+T> = None | Some(value: T)

  datatype Result<+R, +E> = Success(value: R) | Failure(error: E)

  /** Looks a key up in a map, as Python's `dict.get(key)` does. */
  function Get<K, V>(m: map<K, V>, k: K): (r: Option<V>)
    ensures r.Some? <==> k in m
    ensures r.Some? ==> r.value == m[k]
  {
    if k in m then Some(m[k]) else None
  }
}

=== FILE: patterns.dfy ===
/** Classification of one log line by the six patterns the validation
    replay consults, in the order it consults them. The patterns themselves
    are not part of this model: a line is represented by what each pattern's
    search found in it. */
module Patterns {
  import opened Options
  import opened Text
  import opened Dispatch

  /** The search result of each pattern on one stripped line. */
  datatype Matches = Matches(
    queueJoin: Option<(string, string)>,  // captures (player name, player id)
    playerJoined: Option<string>,         // captures the player id
    disconnectPostJoin: Option<string>,   // captures the player id
    missionReady: Option<string>,         // captures the mission name
    missionInitial: Option<string>,       // captures the mission name
    airdropFlying: bool)

  /** What a line means to the replay: the first pattern that matched. */
  datatype Event =
    | QueueJoin(playerName: string, playerId: string)
    | PlayerJoined(playerId: string)
    | Disconnect(playerId: string)
    | MissionReady(mission: string)
    | MissionInitial(mission: string)
    | AirdropFlying
    | Unmatched

  predicate NoPatternMatches(m: Matches)
  {
    && m.queueJoin.None? && m.playerJoined.None? && m.disconnectPostJoin.None?
    && m.missionReady.None? && m.missionInitial.None? && !m.airdropFlying
  }

  /** The validator's if/elif chain: the earliest pattern that matches wins. */
  function Classify(m: Matches): (e: Event)
    ensures e.Unmatched? <==> NoPatternMatches(m)
  {
    if m.queueJoin.Some? then QueueJoin(m.queueJoin.value.0, m.queueJoin.value.1)
    else if m.playerJoined.Some? then PlayerJoined(m.playerJoined.value)
    else if m.disconnectPostJoin.Some? then Disconnect(m.disconnectPostJoin.value)
    else if m.missionReady.Some? then MissionReady(m.missionReady.value)
    else if m.missionInitial.Some? then MissionInitial(m.missionInitial.value)
    else if m.airdropFlying then AirdropFlying
    else Unmatched
  }

  /** Each pattern's result as the event it would yield, in precedence order. */
  function Candidates(m: Matches): (cs: seq<Option<Event>>)
    ensures |cs| == 6
  {
    [ if m.queueJoin.Some? then Some(QueueJoin(m.queueJoin.value.0, m.queueJoin.value.1)) else None,
      if m.playerJoined.Some? then Some(PlayerJoined(m.playerJoined.value)) else None,
      if m.disconnectPostJoin.Some? then Some(Disconnect(m.disconnectPostJoin.value)) else None,
      if m.missionReady.Some? then Some(MissionReady(m.missionReady.value)) else None,
      if m.missionInitial.Some? then Some(MissionInitial(m.missionInitial.value)) else None,
      if m.airdropFlying then Some(AirdropFlying) else None ]
  }

  /** The elif chain is the generic first-match rule over the ordered
      candidate list: a matched line yields the earliest matching pattern's
      event, and every earlier pattern failed on it. */
  lemma ClassifyIsFirstMatch(m: Matches)
    ensures Classify(m) == match FirstMatch(Candidates(m))
                           case None => Unmatched
                           case Some(p) => p.1
    ensures Classify(m) != Unmatched ==>
              exists i :: 0 <= i < 6 && Candidates(m)[i] == Some(Classify(m))
                          && forall j :: 0 <= j < i ==> Candidates(m)[j].None?
  {
    var cs := Candidates(m);
    match FirstMatch(cs)
    case None =>
      assert cs[0].None? && cs[1].None? && cs[2].None? && cs[3].None? && cs[4].None? && cs[5].None?;
    case Some(p) =>
      assert cs[p.0] == Some(p.1);
      assert forall j :: 0 <= j < p.0 ==> cs[j].None?;
      if p.0 > 0 { assert cs[0].None?; }
      if p.0 > 1 { assert cs[1].None?; }
      if p.0 > 2 { assert cs[2].None?; }
      if p.0 > 3 { assert cs[3].None?; }
      if p.0 > 4 { assert cs[4].None?; }
  }

  /** Only missions whose lower-cased name contains "mis" are counted. */
  predicate IsCountedMission(name: string)
  {
    Contains(Lower(name), "mis")
  }

  /** Case-blind "mis" at position `i`: m, i and s in either case. */
  predicate MisAt(name: string, i: int)
  {
    && 0 <= i && i + 3 <= |name|
    && (name[i] == 'm' || name[i] == 'M')
    && (name[i + 1] == 'i' || name[i + 1] == 'I')
    && (name[i + 2] == 's' || name[i + 2] == 'S')
  }

  /** The filter accepts a name exactly when "mis" occurs in it with any
      mix of cases; so it gives the same answer for a name and its
      lower-cased form. */
  lemma {:induction false} MissionFilterIgnoresCase(name: string)
    ensures IsCountedMission(name) <==> exists i :: MisAt(name, i)
    ensures IsCountedMission(Lower(name)) == IsCountedMission(name)
  {
    var l := Lower(name);
    forall i | 0 <= i && i + 3 <= |name|
      ensures OccursAt(l, "mis", i) <==> MisAt(name, i)
    {
      assert l[i..i + 3] == [l[i], l[i + 1], l[i + 2]];
    }
    if IsCountedMission(name) {
      var i :| 0 <= i <= |l| - 3 && OccursAt(l, "mis", i);
      assert MisAt(name, i);
    }
    if exists i :: MisAt(name, i) {
      var i :| MisAt(name, i);
      assert OccursAt(l, "mis", i);
    }
    LowerIdempotent(name);
  }

  /** A mission named like the server's own ("..._mis1") is counted in
      either case, one without "mis" in its name is not. */
  lemma MissionFilterExamples()
    ensures IsCountedMission("GA_Military_02_mis1")
    ensures IsCountedMission("GA_Military_02_MIS1")
    ensures !IsCountedMission("Airdrop")
  {
    var lower := Lower("GA_Military_02_mis1");
    assert lower[15..18] == "mis";
    assert OccursAt(lower, "mis", 15);
    var upper := Lower("GA_Military_02_MIS1");
    assert upper[15..18] == "mis";
    assert OccursAt(upper, "mis", 15);
    var other := Lower("Airdrop");
    assert other == "airdrop";
    forall i | 0 <= i && i + 3 <= |other|
      ensures !OccursAt(other, "mis", i)
    {
      assert other[i..i + 3][0] == other[i] != 'm';
    }
  }
}

=== FILE: replay.dfy ===
/** The connection-event replay of the validation command: a fold over the
    classified lines of a log file that keeps the raw event tallies, the
    four lifecycle counters jq, j2, d1, d2 and a per-player state table. */
module ConnectionReplay {
  import opened Options
  import opened Patterns

  /** The state recorded for a player by the last connection event about them. */
  datatype PlayerState = Queued | Joined | Disconnected

  /** The entries of the validation results dictionary that the replay
      increments. */
  datatype Tally = Tally(
    queueJoins: nat,
    playerJoins: nat,
    disconnectsPostJoin: nat,
    missionsReady: nat,
    missionsInitial: nat,
    airdropsFlying: nat,
    totalLines: nat)

  /** The tallies a classified line can increment. */
  datatype Counter = QueueJoins | PlayerJoins | DisconnectsPostJoin | MissionsReady | MissionsInitial | AirdropsFlying

  function TallyOf(t: Tally, c: Counter): nat
  {
    match c
    case QueueJoins => t.queueJoins
    case PlayerJoins => t.playerJoins
    case DisconnectsPostJoin => t.disconnectsPostJoin
    case MissionsReady => t.missionsReady
    case MissionsInitial => t.missionsInitial
    case AirdropsFlying => t.airdropsFlying
  }

  /** The tally a line's event increments, if any: a mission line only
      counts when its mission name passes the "mis" filter. */
  function CounterOf(e: Event): Option<Counter>
  {
    match e
    case QueueJoin(_, _) => Some(QueueJoins)
    case PlayerJoined(_) => Some(PlayerJoins)
    case Disconnect(_) => Some(DisconnectsPostJoin)
    case MissionReady(name) => if IsCountedMission(name) then Some(MissionsReady) else None
    case MissionInitial(name) => if IsCountedMission(name) then Some(MissionsInitial) else None
    case AirdropFlying => Some(AirdropsFlying)
    case Unmatched => None
  }

  /** The player a connection event is about and the state it records. */
  function Transition(e: Event): Option<(string, PlayerState)>
  {
    match e
    case QueueJoin(_, id) => Some((id, Queued))
    case PlayerJoined(id) => Some((id, Joined))
    case Disconnect(id) => Some((id, Disconnected))
    case _ => None
  }

  predicate Touches(e: Event, id: string)
  {
    Transition(e).Some? && Transition(e).value.0 == id
  }

  /** The four lifecycle counters of the replay. */
  datatype Lifecycle = Lifecycle(
    jq: nat,  // queued
    j2: nat,  // joined
    d1: nat,  // disconnected after join
    d2: nat)  // disconnected before join

  datatype ReplayState = ReplayState(tally: Tally, life: Lifecycle, players: map<string, PlayerState>)

  const Start := ReplayState(Tally(0, 0, 0, 0, 0, 0, 0), Lifecycle(0, 0, 0, 0), map[])

  /** The raw tallies agree with the lifecycle counters. */
  predicate Consistent(s: ReplayState)
  {
    && s.tally.queueJoins == s.life.jq
    && s.tally.playerJoins == s.life.j2
    && s.tally.disconnectsPostJoin == s.life.d1 + s.life.d2
  }

  /** The tally half of one loop iteration: the line total, plus the entry
      the event names (a mission only when its name passes the filter). */
  function Count(t: Tally, e: Event): (r: Tally)
    ensures r.totalLines == t.totalLines + 1
  {
    var t := t.(totalLines := t.totalLines + 1);
    match e
    case QueueJoin(_, _) => t.(queueJoins := t.queueJoins + 1)
    case PlayerJoined(_) => t.(playerJoins := t.playerJoins + 1)
    case Disconnect(_) => t.(disconnectsPostJoin := t.disconnectsPostJoin + 1)
    case MissionReady(name) => if IsCountedMission(name) then t.(missionsReady := t.missionsReady + 1) else t
    case MissionInitial(name) => if IsCountedMission(name) then t.(missionsInitial := t.missionsInitial + 1) else t
    case AirdropFlying => t.(airdropsFlying := t.airdropsFlying + 1)
    case Unmatched => t
  }

  /** A line moves exactly the tally its event names, by one, and no other. */
  lemma CountTally(t: Tally, e: Event, c: Counter)
    ensures TallyOf(Count(t, e), c) == TallyOf(t, c) + if CounterOf(e) == Some(c) then 1 else 0
  {
  }

  /** The lifecycle half of one loop iteration: a disconnect counts as d1
      exactly when the table records the player as joined, otherwise as d2. */
  function Advance(l: Lifecycle, players: map<string, PlayerState>, e: Event): (r: Lifecycle)
    ensures r.jq == l.jq + if e.QueueJoin? then 1 else 0
    ensures r.j2 == l.j2 + if e.PlayerJoined? then 1 else 0
    ensures r.d1 + r.d2 == l.d1 + l.d2 + if e.Disconnect? then 1 else 0
    ensures r.d1 == l.d1 + if e.Disconnect? && Get(players, e.playerId) == Some(Joined) then 1 else 0
  {
    match e
    case QueueJoin(_, _) => l.(jq := l.jq + 1)
    case PlayerJoined(_) => l.(j2 := l.j2 + 1)
    case Disconnect(id) => if Get(players, id) == Some(Joined) then l.(d1 := l.d1 + 1) else l.(d2 := l.d2 + 1)
    case _ => l
  }

  /** The player-table half of one loop iteration. */
  function Track(players: map<string, PlayerState>, e: Event): (r: map<string, PlayerState>)
    ensures Transition(e).Some? ==> Get(r, Transition(e).value.0) == Some(Transition(e).value.1)
    ensures forall id :: !Touches(e, id) ==> Get(r, id) == Get(players, id)
    ensures Transition(e).None? ==> r == players
  {
    match Transition(e)
    case None => players
    case Some((id, state)) => players[id := state]
  }

  /** No counter of `r` is smaller than in `s`. */
  predicate Grows(s: ReplayState, r: ReplayState)
  {
    && s.life.jq <= r.life.jq && s.life.j2 <= r.life.j2 && s.life.d1 <= r.life.d1 && s.life.d2 <= r.life.d2
    && s.tally.queueJoins <= r.tally.queueJoins
    && s.tally.playerJoins <= r.tally.playerJoins
    && s.tally.disconnectsPostJoin <= r.tally.disconnectsPostJoin
    && s.tally.missionsReady <= r.tally.missionsReady
    && s.tally.missionsInitial <= r.tally.missionsInitial
    && s.tally.airdropsFlying <= r.tally.airdropsFlying
    && s.tally.totalLines <= r.tally.totalLines
  }

  /** One iteration of the replay loop on a classified line. */
  function Step(s: ReplayState, e: Event): (r: ReplayState)
    ensures Consistent(s) ==> Consistent(r)
  {
    ReplayState(Count(s.tally, e), Advance(s.life, s.players, e), Track(s.players, e))
  }

  /** Feeds `lines` to the replay loop, in file order, starting from `s`. */
  function Run(s: ReplayState, lines: seq<Matches>): (r: ReplayState)
    ensures r.tally.totalLines == s.tally.totalLines + |lines|
    ensures Consistent(s) ==> Consistent(r)
    decreases |lines|
  {
    if |lines| == 0 then s else Step(Run(s, lines[..|lines| - 1]), Classify(lines[|lines| - 1]))
  }

  /** No line makes any counter go down. */
  lemma StepGrows(s: ReplayState, e: Event)
    ensures Grows(s, Step(s, e))
  {
  }

  lemma {:induction false} RunGrows(s: ReplayState, lines: seq<Matches>)
    ensures Grows(s, Run(s, lines))
    decreases |lines|
  {
    if |lines| > 0 {
      RunGrows(s, lines[..|lines| - 1]);
      StepGrows(Run(s, lines[..|lines| - 1]), Classify(lines[|lines| - 1]));
    }
  }

  /** The whole-file replay, from empty counters and an empty player table. */
  function Replay(lines: seq<Matches>): (r: ReplayState)
    ensures r.tally.totalLines == |lines|
  {
    Run(Start, lines)
  }

  /** Throughout a replay the raw tallies agree with jq, j2 and d1 + d2. */
  lemma ReplayConsistent(lines: seq<Matches>)
    ensures Consistent(Replay(lines))
  {
  }

  /** Replaying one more line is one more step of the loop. */
  lemma RunExtend(s: ReplayState, lines: seq<Matches>, n: nat)
    requires n < |lines|
    ensures Run(s, lines[..n + 1]) == Step(Run(s, lines[..n]), Classify(lines[n]))
  {
    assert lines[..n + 1][..n] == lines[..n];
  }

  /** Replaying a file with one more line at the end is one more step. */
  lemma RunSnoc(s: ReplayState, lines: seq<Matches>, m: Matches)
    ensures Run(s, lines + [m]) == Step(Run(s, lines), Classify(m))
  {
    assert (lines + [m])[..|lines|] == lines;
  }

  /** Replaying a file in two pieces, the second resuming from where the
      first stopped, is the same as replaying it in one go. */
  lemma {:induction false} RunAppend(s: ReplayState, a: seq<Matches>, b: seq<Matches>)
    ensures Run(s, a + b) == Run(Run(s, a), b)
    decreases |b|
  {
    if |b| == 0 {
      assert a + b == a;
    } else {
      var ab := a + b;
      assert ab[..|ab| - 1] == a + b[..|b| - 1];
      assert ab[|ab| - 1] == b[|b| - 1];
      RunAppend(s, a, b[..|b| - 1]);
    }
  }

  // ---------------------------------------------------------------------
  // Reference definitions, stated over the line history rather than the
  // replay's running state.
  // ---------------------------------------------------------------------

  /** The number of lines whose event increments tally `c`. */
  function Occurrences(lines: seq<Matches>, c: Counter): (n: nat)
    ensures n <= |lines|
  {
    if |lines| == 0 then 0
    else Occurrences(lines[..|lines| - 1], c) + if CounterOf(Classify(lines[|lines| - 1])) == Some(c) then 1 else 0
  }

  /** The state implied by the most recent connection event about `id`,
      or None when no line mentions that player. */
  function LastState(lines: seq<Matches>, id: string): Option<PlayerState>
  {
    if |lines| == 0 then None
    else if Touches(Classify(lines[|lines| - 1]), id) then Some(Transition(Classify(lines[|lines| - 1])).value.1)
    else LastState(lines[..|lines| - 1], id)
  }

  /** The number of disconnect lines whose player's most recent earlier
      connection event was a join. */
  function PostJoinDisconnects(lines: seq<Matches>): nat
  {
    if |lines| == 0 then 0
    else
      var prefix := lines[..|lines| - 1];
      var e := Classify(lines[|lines| - 1]);
      PostJoinDisconnects(prefix) + if e.Disconnect? && LastState(prefix, e.playerId) == Some(Joined) then 1 else 0
  }

  /** Every tally counts exactly the lines whose event names it. */
  lemma {:induction false} RunCounts(s: ReplayState, lines: seq<Matches>, c: Counter)
    ensures TallyOf(Run(s, lines).tally, c) == TallyOf(s.tally, c) + Occurrences(lines, c)
    decreases |lines|
  {
    if |lines| > 0 {
      RunCounts(s, lines[..|lines| - 1], c);
      CountTally(Run(s, lines[..|lines| - 1]).tally, Classify(lines[|lines| - 1]), c);
    }
  }

  /** From empty counters, every tally is the number of lines naming it. */
  lemma ReplayTallies(lines: seq<Matches>)
    ensures forall c: Counter :: TallyOf(Replay(lines).tally, c) == Occurrences(lines, c)
  {
    forall c: Counter
      ensures TallyOf(Replay(lines).tally, c) == Occurrences(lines, c)
    {
      RunCounts(Start, lines, c);
    }
  }

  /** Each line names at most one tally, so the tallies together never
      exceed the number of lines read. */
  lemma {:induction false} OccurrencesPartition(lines: seq<Matches>)
    ensures Occurrences(lines, QueueJoins) + Occurrences(lines, PlayerJoins) + Occurrences(lines, DisconnectsPostJoin)
            + Occurrences(lines, MissionsReady) + Occurrences(lines, MissionsInitial) + Occurrences(lines, AirdropsFlying)
            <= |lines|
  {
    if |lines| > 0 {
      OccurrencesPartition(lines[..|lines| - 1]);
    }
  }

  /** The player table holds, for every player, the state of the most
      recent connection event about them; players no line mentions keep
      whatever the starting table said. */
  lemma {:induction false} RunPlayers(s: ReplayState, lines: seq<Matches>, id: string)
    ensures Get(Run(s, lines).players, id) == if LastState(lines, id).Some? then LastState(lines, id) else Get(s.players, id)
    decreases |lines|
  {
    if |lines| > 0 {
      var prefix := lines[..|lines| - 1];
      RunPlayers(s, prefix, id);
    }
  }

  /** d1 counts the disconnects that follow a join of the same player with
      no other event about them in between; d2 counts all other disconnects,
      including those of players never seen before. */
  lemma {:induction false} ReplayDisconnects(lines: seq<Matches>)
    ensures Replay(lines).life.d1 == PostJoinDisconnects(lines)
    ensures Replay(lines).life.d1 + Replay(lines).life.d2 == Occurrences(lines, DisconnectsPostJoin)
    decreases |lines|
  {
    var r := Replay(lines);
    ReplayConsistent(lines);
    RunCounts(Start, lines, DisconnectsPostJoin);
    assert TallyOf(r.tally, DisconnectsPostJoin) == Occurrences(lines, DisconnectsPostJoin);
    if |lines| > 0 {
      var prefix := lines[..|lines| - 1];
      ReplayDisconnects(prefix);
      var p := Replay(prefix);
      assert r == Step(p, Classify(lines[|lines| - 1]));
      var e := Classify(lines[|lines| - 1]);
      if e.Disconnect? {
        RunPlayers(Start, prefix, e.playerId);
        assert Get(p.players, e.playerId) == LastState(prefix, e.playerId);
      }
    }
  }

  /** The player count PC = j2 - d1 and the queue count QC = jq - j2 - d2,
      with no clamping at zero. */
  function PlayerCount(s: ReplayState): int
  {
    s.life.j2 - s.life.d1
  }

  function QueueCount(s: ReplayState): int
  {
    s.life.jq - s.life.j2 - s.life.d2
  }

  /** The player count of a replay, in terms of the line history alone:
      joins minus disconnects of joined players. */
  lemma PlayerCountOfHistory(lines: seq<Matches>)
    ensures PlayerCount(Replay(lines)) == Occurrences(lines, PlayerJoins) - PostJoinDisconnects(lines)
  {
    ReplayTallies(lines);
    assert Replay(lines).life.j2 == Occurrences(lines, PlayerJoins) by {
      ReplayConsistent(lines);
      assert TallyOf(Replay(lines).tally, PlayerJoins) == Occurrences(lines, PlayerJoins);
    }
    ReplayDisconnects(lines);
  }

  /** The queue count of a replay, in terms of the line history alone:
      queue joins minus joins minus every other disconnect. */
  lemma QueueCountOfHistory(lines: seq<Matches>)
    ensures QueueCount(Replay(lines))
            == Occurrences(lines, QueueJoins) - Occurrences(lines, PlayerJoins)
               - (Occurrences(lines, DisconnectsPostJoin) - PostJoinDisconnects(lines))
  {
    ReplayTallies(lines);
    ReplayConsistent(lines);
    assert Replay(lines).life.jq == Occurrences(lines, QueueJoins) by {
      assert TallyOf(Replay(lines).tally, QueueJoins) == Occurrences(lines, QueueJoins);
    }
    assert Replay(lines).life.j2 == Occurrences(lines, PlayerJoins) by {
      assert TallyOf(Replay(lines).tally, PlayerJoins) == Occurrences(lines, PlayerJoins);
    }
    ReplayDisconnects(lines);
  }
}

=== FILE: reset.dfy ===
/** The reset command: drops the saved parser state of one server of the
    calling guild, or of all of them, so that the next run starts afresh. */
module Reset {
  import opened Options
  import opened Tables

  /** The reasons the command stops with an error message. */
  datatype ResetError =
    | ParserNotInitialized
    | GuildNotConfigured
    | NoServersConfigured
    | ServerNotFound(serverId: string)

  /** The keys of a guild's servers, in configuration order. A server's key
      is among them exactly when a server with that id is configured, so
      resetting every server clears what resetting each one would. */
  function GuildKeys(guild: nat, servers: seq<ServerConfig>): (keys: seq<string>)
    ensures |keys| == |servers|
    ensures forall i :: 0 <= i < |servers| ==> keys[i] == ServerKey(guild, KeyId(servers[i]))
    ensures forall id :: ServerKey(guild, id) in keys <==> Configured(servers, id)
  {
    var keys := seq(|servers|, i requires 0 <= i < |servers| => ServerKey(guild, KeyId(servers[i])));
    KeysOfConfigured(guild, servers, keys);
    keys
  }

  lemma KeysOfConfigured(guild: nat, servers: seq<ServerConfig>, keys: seq<string>)
    requires |keys| == |servers|
    requires forall i :: 0 <= i < |servers| ==> keys[i] == ServerKey(guild, KeyId(servers[i]))
    ensures forall id :: ServerKey(guild, id) in keys <==> Configured(servers, id)
  {
    forall id ensures ServerKey(guild, id) in keys <==> Configured(servers, id) {
      if ServerKey(guild, id) in keys {
        var i :| 0 <= i < |keys| && keys[i] == ServerKey(guild, id);
        ServerKeyInjective(guild, KeyId(servers[i]), guild, id);
      }
      if Configured(servers, id) {
        var i :| 0 <= i < |servers| && KeyId(servers[i]) == id;
        assert keys[i] == ServerKey(guild, id);
      }
    }
  }

  /** Forgets each key in turn. */
  function ForgetAll(t: Tables, keys: seq<string>): (r: Tables)
    decreases |keys|
  {
    if |keys| == 0 then t else Forget(ForgetAll(t, keys[..|keys| - 1]), keys[|keys| - 1])
  }

  /** Forgetting a list of keys clears exactly those keys and leaves every
      other key's entries as they were. */
  lemma {:induction false} ForgetAllSpec(t: Tables, keys: seq<string>)
    ensures forall i :: 0 <= i < |keys| ==> Cleared(ForgetAll(t, keys), keys[i])
    ensures forall k :: k !in keys ==> SameAt(t, ForgetAll(t, keys), k)
    decreases |keys|
  {
    if |keys| > 0 {
      var init := keys[..|keys| - 1];
      ForgetAllSpec(t, init);
      var r := ForgetAll(t, keys);
      forall i | 0 <= i < |keys| ensures Cleared(r, keys[i]) {
        if i < |keys| - 1 && keys[i] != keys[|keys| - 1] {
          assert keys[i] == init[i];
          assert SameAt(ForgetAll(t, init), r, keys[i]);
        }
      }
      forall k | k !in keys ensures SameAt(t, r, k) {
        assert k !in init && k != keys[|keys| - 1];
        assert SameAt(ForgetAll(t, init), r, k);
      }
    }
  }

  /** Forgetting the same keys a second time changes nothing. */
  lemma ForgetAllIdempotent(t: Tables, keys: seq<string>)
    ensures ForgetAll(ForgetAll(t, keys), keys) == ForgetAll(t, keys)
  {
    var r := ForgetAll(t, keys);
    ForgetAllSpec(t, keys);
    ForgetAllSpec(r, keys);
    forall k ensures SameAt(ForgetAll(r, keys), r, k) {
      if k in keys {
        var i :| 0 <= i < |keys| && keys[i] == k;
        assert Cleared(r, k) && Cleared(ForgetAll(r, keys), k);
      }
    }
    SameEverywhere(ForgetAll(r, keys), r);
  }

  /** The reset-all branch: clears the key of every configured server and
      counts one reset per configured server. */
  method ResetAll(t: Tables, guild: nat, servers: seq<ServerConfig>) returns (r: Tables, count: nat)
    ensures r == ForgetAll(t, GuildKeys(guild, servers))
    ensures count == |servers|
  {
    var keys := GuildKeys(guild, servers);
    r := t;
    count := 0;
    for i := 0 to |servers|
      invariant r == ForgetAll(t, keys[..i])
      invariant count == i
    {
      assert keys[..i + 1][..i] == keys[..i];
      r := Forget(r, ServerKey(guild, KeyId(servers[i])));
      count := count + 1;
    }
    assert keys[..|servers|] == keys;
  }

  /** Some configured server has exactly this id. */
  predicate Configured(servers: seq<ServerConfig>, id: string)
  {
    exists i :: 0 <= i < |servers| && KeyId(servers[i]) == id
  }

  /** The single-server branch: the key is built from the requested id once a
      configured server with that id is found. */
  method ResetOne(t: Tables, guild: nat, servers: seq<ServerConfig>, id: string) returns (result: Result<(Tables, nat), ResetError>)
    ensures result.Success? <==> Configured(servers, id)
    ensures result.Success? ==> result.value == (Forget(t, ServerKey(guild, id)), 1)
    ensures result.Failure? ==> result.error == ServerNotFound(id)
  {
    for i := 0 to |servers|
      invariant forall j :: 0 <= j < i ==> KeyId(servers[j]) != id
    {
      if KeyId(servers[i]) == id {
        return Success((Forget(t, ServerKey(guild, id)), 1));
      }
    }
    return Failure(ServerNotFound(id));
  }

  /** The command as a whole. `parser` is the bot's log parser, absent when
      it was never started; `config` is what the database returned for the
      guild; an absent or empty `serverId` asks for every server. */
  method ResetLogParser(parser: Option<Tables>, guild: nat, config: Option<GuildConfig>, serverId: Option<string>)
    returns (result: Result<(Tables, nat), ResetError>)
    ensures parser.None? ==> result == Failure(ParserNotInitialized)
    ensures parser.Some? && config.None? ==> result == Failure(GuildNotConfigured)
    ensures parser.Some? && config.Some? && |config.value.servers| == 0 ==> result == Failure(NoServersConfigured)
    ensures parser.Some? && config.Some? && |config.value.servers| > 0 ==>
              if serverId.Some? && serverId.value != "" then
                && (result.Success? <==> Configured(config.value.servers, serverId.value))
                && (result.Success? ==> result.value == (Forget(parser.value, ServerKey(guild, serverId.value)), 1))
                && (result.Failure? ==> result.error == ServerNotFound(serverId.value))
              else
                result == Success((ForgetAll(parser.value, GuildKeys(guild, config.value.servers)), |config.value.servers|))
  {
    if parser.None? {
      return Failure(ParserNotInitialized);
    }
    if config.None? {
      return Failure(GuildNotConfigured);
    }
    var servers := config.value.servers;
    if |servers| == 0 {
      return Failure(NoServersConfigured);
    }
    if serverId.Some? && serverId.value != "" {
      result := ResetOne(parser.value, guild, servers, serverId.value);
    } else {
      var r, count := ResetAll(parser.value, guild, servers);
      result := Success((r, count));
    }
  }

  /** Resetting every server clears each configured server's state, just as
      resetting that server alone would. */
  lemma ResetAllCoversResetOne(t: Tables, guild: nat, servers: seq<ServerConfig>, id: string)
    requires Configured(servers, id)
    ensures Cleared(ForgetAll(t, GuildKeys(guild, servers)), ServerKey(guild, id))
  {
    var keys := GuildKeys(guild, servers);
    ForgetAllSpec(t, keys);
    var i :| 0 <= i < |keys| && keys[i] == ServerKey(guild, id);
  }

  /** A reset of one guild never touches the state of another guild's
      servers, whatever their ids. */
  lemma ResetAllIsolatesGuilds(t: Tables, guild: nat, servers: seq<ServerConfig>, other: nat, id: string)
    requires other != guild
    ensures SameAt(t, ForgetAll(t, GuildKeys(guild, servers)), ServerKey(other, id))
  {
    var keys := GuildKeys(guild, servers);
    ForgetAllSpec(t, keys);
    if ServerKey(other, id) in keys {
      var i :| 0 <= i < |keys| && keys[i] == ServerKey(other, id);
      ServerKeyInjective(guild, KeyId(servers[i]), other, id);
    }
  }

  /** Resetting one server leaves every other server's state alone, in this
      guild and in every other. */
  lemma ResetOneIsolatesServers(t: Tables, guild: nat, id: string, other: nat, otherId: string)
    requires other != guild || otherId != id
    ensures SameAt(t, Forget(t, ServerKey(guild, id)), ServerKey(other, otherId))
  {
    if ServerKey(other, otherId) == ServerKey(guild, id) {
      ServerKeyInjective(other, otherId, guild, id);
    }
  }
}

=== FILE: tables.dfy ===
/** The per-server state the log parser keeps between runs, in the five
    tables the reset command clears. Every table is keyed by a server key,
    the guild id and the server id joined by an underscore. */
module Tables {
  import opened Options
  import opened Decimal

  /** Size and line count of a server's log file when it was last read. */
  datatype FileState = FileState(fileSize: nat, lineCount: nat)

  /** The live counts the connection parser last derived for a server. */
  datatype ServerStats = ServerStats(queueCount: int, playerCount: int)

  /** What the connection parser remembers about one player. */
  datatype PlayerRecord = PlayerRecord(currentState: string)

  datatype Tables = Tables(
    lastLogPosition: map<string, nat>,
    fileStates: map<string, FileState>,
    playerStates: map<string, map<string, PlayerRecord>>,  // server key -> player id -> record
    serverStats: map<string, ServerStats>,
    serverStatus: map<string, string>)

  /** A configured server: the text of its `_id`, absent when the
      configuration entry has none. */
  datatype ServerConfig = ServerConfig(storedId: Option<string>)

  /** The configuration the database holds for a guild. */
  datatype GuildConfig = GuildConfig(servers: seq<ServerConfig>)

  /** The id the reset command matches and builds keys from:
      `str(server.get('_id'))`, which is "None" for an entry without one. */
  function KeyId(s: ServerConfig): string
  {
    if s.storedId.Some? then s.storedId.value else "None"
  }

  /** The id the debug command matches against:
      `str(server_config.get('_id', 'unknown'))`, which is "unknown" for an
      entry without one. */
  function ShownId(s: ServerConfig): string
  {
    if s.storedId.Some? then s.storedId.value else "unknown"
  }

  /** The key of server `id` of guild `guild`: `f"{guild_id}_{server_id}"`. */
  function ServerKey(guild: nat, id: string): (k: string)
    ensures |k| > |NatToString(guild)|
    ensures k[..|NatToString(guild)|] == NatToString(guild)
    ensures k[|NatToString(guild)|] == '_'
    ensures k[|NatToString(guild)| + 1..] == id
  {
    NatToString(guild) + "_" + id
  }

  /** Distinct (guild, server) pairs never share a key: the guild id is all
      digits, so the first underscore marks where it ends. */
  lemma ServerKeyInjective(g1: nat, id1: string, g2: nat, id2: string)
    requires ServerKey(g1, id1) == ServerKey(g2, id2)
    ensures g1 == g2 && id1 == id2
  {
    var n1, n2 := NatToString(g1), NatToString(g2);
    if |n1| != |n2| {
      assert false;
    }
    RenderingInjective(g1, g2);
  }

  /** No table holds an entry for `key`. */
  predicate Cleared(t: Tables, key: string)
  {
    && key !in t.lastLogPosition
    && key !in t.fileStates
    && key !in t.playerStates
    && key !in t.serverStats
    && key !in t.serverStatus
  }

  /** `t` and `u` hold the same entries (or the same absence) for `key`. */
  predicate SameAt(t: Tables, u: Tables, key: string)
  {
    && Get(t.lastLogPosition, key) == Get(u.lastLogPosition, key)
    && Get(t.fileStates, key) == Get(u.fileStates, key)
    && Get(t.playerStates, key) == Get(u.playerStates, key)
    && Get(t.serverStats, key) == Get(u.serverStats, key)
    && Get(t.serverStatus, key) == Get(u.serverStatus, key)
  }

  /** The five `pop(server_key, None)` calls: drops the key from every table,
      whether or not it was there. */
  function Forget(t: Tables, key: string): (r: Tables)
    ensures Cleared(r, key)
    ensures forall k :: k != key ==> SameAt(t, r, k)
  {
    Tables(t.lastLogPosition - {key}, t.fileStates - {key}, t.playerStates - {key},
           t.serverStats - {key}, t.serverStatus - {key})
  }

  /** Two tables that agree on every key are the same tables. */
  lemma SameEverywhere(t: Tables, u: Tables)
    requires forall k :: SameAt(t, u, k)
    ensures t == u
  {
    assert t.lastLogPosition == u.lastLogPosition by {
      forall k ensures (k in t.lastLogPosition <==> k in u.lastLogPosition) && (k in t.lastLogPosition ==> t.lastLogPosition[k] == u.lastLogPosition[k]) {
        assert SameAt(t, u, k);
      }
    }
    assert t.fileStates == u.fileStates by {
      forall k ensures (k in t.fileStates <==> k in u.fileStates) && (k in t.fileStates ==> t.fileStates[k] == u.fileStates[k]) {
        assert SameAt(t, u, k);
      }
    }
    assert t.playerStates == u.playerStates by {
      forall k ensures (k in t.playerStates <==> k in u.playerStates) && (k in t.playerStates ==> t.playerStates[k] == u.playerStates[k]) {
        assert SameAt(t, u, k);
      }
    }
    assert t.serverStats == u.serverStats by {
      forall k ensures (k in t.serverStats <==> k in u.serverStats) && (k in t.serverStats ==> t.serverStats[k] == u.serverStats[k]) {
        assert SameAt(t, u, k);
      }
    }
    assert t.serverStatus == u.serverStatus by {
      forall k ensures (k in t.serverStatus <==> k in u.serverStatus) && (k in t.serverStatus ==> t.serverStatus[k] == u.serverStatus[k]) {
        assert SameAt(t, u, k);
      }
    }
  }

  /** Forgetting a key that no table holds changes nothing. */
  lemma ForgetCleared(t: Tables, key: string)
    requires Cleared(t, key)
    ensures Forget(t, key) == t
  {
    SameEverywhere(Forget(t, key), t);
  }

  /** Forgetting is idempotent, and the order in which keys are forgotten
      does not matter. */
  lemma ForgetIdempotent(t: Tables, key: string)
    ensures Forget(Forget(t, key), key) == Forget(t, key)
  {
    ForgetCleared(Forget(t, key), key);
  }

  lemma ForgetCommutes(t: Tables, a: string, b: string)
    ensures Forget(Forget(t, a), b) == Forget(Forget(t, b), a)
  {
    assert t.lastLogPosition - {a} - {b} == t.lastLogPosition - {b} - {a};
    assert t.fileStates - {a} - {b} == t.fileStates - {b} - {a};
    assert t.playerStates - {a} - {b} == t.playerStates - {b} - {a};
    assert t.serverStats - {a} - {b} == t.serverStats - {b} - {a};
    assert t.serverStatus - {a} - {b} == t.serverStatus - {b} - {a};
  }
}

=== FILE: text.dfy ===
/** The two string operations the mission filter relies on: lower-casing
    and the substring test of Python's `in` operator on strings. */
module Text {

  /** Lower-cases one character (ASCII letters only). */
  function LowerChar(c: char): (r: char)
    ensures !('A' <= r <= 'Z')
    ensures !('A' <= c <= 'Z') ==> r == c
    ensures 'A' <= c <= 'Z' ==> 'a' <= r <= 'z' && r as int - 'a' as int == c as int - 'A' as int
  {
    if 'A' <= c <= 'Z' then (c as int + 32) as char else c
  }

  /** Python's `s.lower()` on ASCII text: no upper-case letter is left, every
      other character stays, and each letter becomes the same letter in
      lower case. */
  function Lower(s: string): (r: string)
    ensures |r| == |s|
    ensures forall i :: 0 <= i < |r| ==> !('A' <= r[i] <= 'Z')
    ensures forall i :: 0 <= i < |s| && !('A' <= s[i] <= 'Z') ==> r[i] == s[i]
    ensures forall i :: 0 <= i < |s| && 'A' <= s[i] <= 'Z' ==>
              'a' <= r[i] <= 'z' && r[i] as int - 'a' as int == s[i] as int - 'A' as int
  {
    seq(|s|, i requires 0 <= i < |s| => LowerChar(s[i]))
  }

  /** Lower-casing text that is already lower-cased changes nothing. */
  lemma LowerIdempotent(s: string)
    ensures Lower(Lower(s)) == Lower(s)
  {
    var l := Lower(s);
    assert forall i :: 0 <= i < |l| ==> Lower(l)[i] == l[i];
  }

  /** `pat` occurs in `s` starting at position `i`. */
  predicate OccursAt(s: string, pat: string, i: int)
  {
    0 <= i && i + |pat| <= |s| && s[i..i + |pat|] == pat
  }

  /** Python's `pat in s` on strings: `pat` occurs somewhere in `s`. */
  predicate Contains(s: string, pat: string)
  {
    exists i :: 0 <= i <= |s| - |pat| && OccursAt(s, pat, i)
  }
}

=== FILE: validate.dfy ===
/** The validation command: replays every line of a log file and reports
    the raw tallies, the lifecycle counters and the derived counts. */
module Validate {
  import opened Options
  import opened Patterns
  import opened ConnectionReplay

  /** The figures the validation report shows. */
  datatype Report = Report(
    totalLines: nat,
    queueJoins: nat,        // shown as "jq"
    playerJoins: nat,       // shown as "j2"
    shownD1: nat,           // shown as "Disconnects Post-Join (d1)"
    shownD2: nat,           // shown as "Disconnects Pre-Join (d2)"
    playerCount: int,       // shown with the formula "PC = j2 - d1"
    queueCount: int,        // shown with the formula "QC = jq - j2 - d2"
    missionsReady: nat,
    missionsInitial: nat,
    airdropsFlying: nat,
    patternsWorking: bool,
    playerCountValid: bool,
    queueCountValid: bool)

  /** The report figure that shows tally `c`. */
  function ReportTally(r: Report, c: Counter): int
  {
    match c
    case QueueJoins => r.queueJoins
    case PlayerJoins => r.playerJoins
    case DisconnectsPostJoin => r.shownD1 + r.shownD2
    case MissionsReady => r.missionsReady
    case MissionsInitial => r.missionsInitial
    case AirdropsFlying => r.airdropsFlying
  }

  /** The report as the command builds it: the line labelled d1 shows the
      number of disconnect lines, which is d1 + d2. */
  function ReportAsWritten(s: ReplayState): (r: Report)
    ensures Consistent(s) ==> r.shownD1 == s.life.d1 + s.life.d2
    ensures Consistent(s) ==> r.playerCount == r.playerJoins - s.life.d1
    ensures Consistent(s) ==> r.queueCount == r.queueJoins - r.playerJoins - r.shownD2
  {
    Report(s.tally.totalLines, s.tally.queueJoins, s.tally.playerJoins,
           s.tally.disconnectsPostJoin, s.life.d2,
           PlayerCount(s), QueueCount(s),
           s.tally.missionsReady, s.tally.missionsInitial, s.tally.airdropsFlying,
           s.tally.queueJoins > 0, PlayerCount(s) >= 0, QueueCount(s) >= 0)
  }

  /** The report with d1 shown as d1, so that the printed figures satisfy
      the printed formulas. */
  function MakeReport(s: ReplayState): (r: Report)
    requires Consistent(s)
    ensures r.playerCount == r.playerJoins - r.shownD1
    ensures r.queueCount == r.queueJoins - r.playerJoins - r.shownD2
    ensures r.playerCountValid <==> r.playerCount >= 0
    ensures r.queueCountValid <==> r.queueCount >= 0
    ensures r.patternsWorking <==> r.queueJoins > 0
  {
    ReportAsWritten(s).(shownD1 := s.life.d1)
  }

  /** Every raw tally appears in the report; the disconnect tally as the
      sum of the two disconnect figures. */
  lemma ReportShowsTallies(s: ReplayState)
    requires Consistent(s)
    ensures forall c: Counter :: ReportTally(MakeReport(s), c) == TallyOf(s.tally, c)
  {
  }

  /** The replay loop over the lines of the file, in order, and the report
      the command builds from it: the line labelled d1 shows every
      disconnect, while PC is computed from the post-join ones only. */
  method ValidateLogParser(lines: seq<Matches>) returns (report: Report)
    ensures report.totalLines == |lines|
    ensures forall c: Counter :: c != DisconnectsPostJoin ==> ReportTally(report, c) == Occurrences(lines, c)
    ensures report.shownD1 == Occurrences(lines, DisconnectsPostJoin)
    ensures report.shownD2 == Occurrences(lines, DisconnectsPostJoin) - PostJoinDisconnects(lines)
    ensures report.playerCount == report.playerJoins - PostJoinDisconnects(lines)
    ensures report.queueCount == report.queueJoins - report.playerJoins - report.shownD2
    ensures report.patternsWorking <==> report.queueJoins > 0
    ensures report.playerCountValid <==> report.playerCount >= 0
    ensures report.queueCountValid <==> report.queueCount >= 0
  {
    var s := ReplayLoop(lines);
    report := ReportAsWritten(s);
    AsWrittenReportOfHistory(lines);
  }

  /** The `for line in lines` loop, from the zero counters and an empty
      player table: it ends in the state the replay fold defines. */
  method ReplayLoop(lines: seq<Matches>) returns (s: ReplayState)
    ensures s == Replay(lines)
  {
    s := Start;
    var n := 0;
    while n < |lines|
      invariant 0 <= n <= |lines|
      invariant s == Run(Start, lines[..n])
    {
      RunExtend(Start, lines, n);
      s := Step(s, Classify(lines[n]));
      n := n + 1;
    }
    assert lines[..n] == lines;
  }

  /** The as-written report of a whole file, in terms of its lines alone. */
  lemma AsWrittenReportOfHistory(lines: seq<Matches>)
    ensures var r := ReportAsWritten(Replay(lines));
            && (forall c: Counter :: c != DisconnectsPostJoin ==> ReportTally(r, c) == Occurrences(lines, c))
            && r.shownD1 == Occurrences(lines, DisconnectsPostJoin)
            && r.shownD2 == Occurrences(lines, DisconnectsPostJoin) - PostJoinDisconnects(lines)
            && r.playerCount == r.playerJoins - PostJoinDisconnects(lines)
  {
    var s := Replay(lines);
    ReplayConsistent(lines);
    ReplayTallies(lines);
    ReplayDisconnects(lines);
    ReportAsWrittenShowsTallies(s);
  }

  /** The report as written shows every tally but the disconnect tally
      under its own label. */
  lemma ReportAsWrittenShowsTallies(s: ReplayState)
    requires Consistent(s)
    ensures forall c: Counter :: c != DisconnectsPostJoin ==> ReportTally(ReportAsWritten(s), c) == TallyOf(s.tally, c)
    ensures ReportAsWritten(s).shownD1 == TallyOf(s.tally, DisconnectsPostJoin)
  {
  }

  /** For every log, the d1 line as written exceeds the real d1 by d2, so
      the printed figures satisfy the printed formula PC = j2 - d1 exactly
      when no player disconnected before joining. */
  lemma ShownD1AsWritten(lines: seq<Matches>)
    ensures var s := Replay(lines);
            ReportAsWritten(s).shownD1 == MakeReport(s).shownD1 + s.life.d2
    ensures var s := Replay(lines); var r := ReportAsWritten(s);
            r.playerCount == r.playerJoins - r.shownD1 <==> s.life.d2 == 0
  {
    ReplayConsistent(lines);
  }

  // ---------------------------------------------------------------------
  // Worked examples
  // ---------------------------------------------------------------------

  function QueueLine(name: string, id: string): Matches
  {
    Matches(Some((name, id)), None, None, None, None, false)
  }

  function JoinLine(id: string): Matches
  {
    Matches(None, Some(id), None, None, None, false)
  }

  function DisconnectLine(id: string): Matches
  {
    Matches(None, None, Some(id), None, None, false)
  }

  /** A line no pattern matches moves only the line total. */
  lemma UnmatchedLineOnlyCounted(s: ReplayState, m: Matches)
    requires NoPatternMatches(m)
    ensures Step(s, Classify(m)) == s.(tally := s.tally.(totalLines := s.tally.totalLines + 1))
  {
  }

  /** Replaying one, two or three lines is that many steps of the loop. */
  lemma RunOne(s: ReplayState, l1: Matches)
    ensures Run(s, [l1]) == Step(s, Classify(l1))
  {
    assert [l1][..0] == [];
  }

  lemma RunTwo(s: ReplayState, l1: Matches, l2: Matches)
    ensures Run(s, [l1, l2]) == Step(Step(s, Classify(l1)), Classify(l2))
  {
    RunOne(s, l1);
    RunSnoc(s, [l1], l2);
    assert [l1] + [l2] == [l1, l2];
  }

  lemma RunThree(s: ReplayState, l1: Matches, l2: Matches, l3: Matches)
    ensures Run(s, [l1, l2, l3]) == Step(Step(Step(s, Classify(l1)), Classify(l2)), Classify(l3))
  {
    RunTwo(s, l1, l2);
    RunSnoc(s, [l1, l2], l3);
    assert [l1, l2] + [l3] == [l1, l2, l3];
  }

  /** A player queues, joins and leaves: the leave is a post-join
      disconnect, and nobody is left playing or queued. */
  lemma FullLifecycleExample(a: string)
    ensures var s := Replay([QueueLine("PlayerA", a), JoinLine(a), DisconnectLine(a)]);
            && s.life == Lifecycle(1, 1, 1, 0)
            && PlayerCount(s) == 0 && QueueCount(s) == 0
  {
    RunThree(Start, QueueLine("PlayerA", a), JoinLine(a), DisconnectLine(a));
  }

  /** A player queues and leaves before joining: the leave is a pre-join
      disconnect and the queue is empty again. */
  lemma LeftWhileQueuedExample(a: string)
    ensures var s := Replay([QueueLine("PlayerA", a), DisconnectLine(a)]);
            && s.life == Lifecycle(1, 0, 0, 1)
            && PlayerCount(s) == 0 && QueueCount(s) == 0
  {
    RunTwo(Start, QueueLine("PlayerA", a), DisconnectLine(a));
  }

  /** A disconnect of a player never seen before counts as d2, and the
      queue count goes negative: it is reported invalid, not clamped. */
  lemma StrayDisconnectExample(a: string)
    ensures var s := Replay([DisconnectLine(a)]);
            && s.life == Lifecycle(0, 0, 0, 1)
            && QueueCount(s) == -1
            && !ReportAsWritten(s).queueCountValid
  {
    RunOne(Start, DisconnectLine(a));
  }

  /** The report as written breaks its own formula PC = j2 - d1 on a log
      holding a single stray disconnect: it shows d1 = 1 where d1 is 0. */
  lemma ShownD1AsWrittenCountsAllDisconnects(a: string)
    ensures var r := ReportAsWritten(Replay([DisconnectLine(a)]));
            && Replay([DisconnectLine(a)]).life.d1 == 0
            && r.shownD1 == 1
            && r.playerCount != r.playerJoins - r.shownD1
  {
    StrayDisconnectExample(a);
    ReplayConsistent([DisconnectLine(a)]);
  }
}
